=== FILE: README.md ===
# StatelyDB MCP server: decision and formatting core

This project models `index.ts` of the StatelyDB MCP server in Dafny. That file is the bridge between tool calls and the `stately` command-line program.

Each tool runs an external command and reads its output. It turns that text into a verdict (`isError`) and a response text. The tools that need files do this inside a temporary workspace, and a `finally` block removes it.

The model covers:

- the five verdict classifiers: validate-schema, validate-migrations, schema-put, verify-login, and attempt-login with its activation-URL scanner;
- the error text every `catch` block composes;
- `collectFiles` over a directory tree;
- `getLanguageExtension`, including Node's POSIX `path.extname`;
- the schema-generate rendering;
- the workspace lifecycle of each handler, as a trace of events over a three-state machine (`Absent`, `Live`, `Removed`).

External results are parameters. An exec result is `Ok(stdout, stderr)` or `Err(message, stdout)`. A filesystem call either completes or fails with a message. A directory tree is an `Entry` datatype.

Modules:

- `Text`: substring search (`Includes`) against a declarative `Occurs`.
- `Exec`: exec results, envelopes and the `catch` error text.
- `Classifiers`: the substring-test verdicts.
- `LoginUrl`: the case-insensitive activation-URL scanner and attempt-login.
- `FileTree`: `collectFiles`.
- `LanguageTag`: `path.extname` and the tag table.
- `GenerateRender`: the schema-generate text.
- `Handlers`: the handler runs and the workspace lifecycle.

Three behaviours of the code shape the model:

- A non-zero exit is not returned as data. Node's promisified `exec` rejects on a non-zero exit, so every handler sends such a run to its `catch` path. `Err` therefore covers spawn failure, non-zero exit, and any exception raised inside the handler's `try`.
- `collectFiles` does not return an empty list for a directory that does not exist. `readdirSync` throws, and schema-generate reports that throw through its `catch`. This is `ListFailed` in the model.
- Not every exit path removes the workspace. See the findings.

## Model

| member | source | states |
|---|---|---|
| Text.Includes | index.ts:53 | `String.prototype.includes` holds exactly when the needle occurs at some index of the text. |
| Exec.ErrorText | index.ts:374-385 | The catch text starts with `"<prefix>: <message>"`. It equals that head exactly when there is no captured stdout. Otherwise the head is followed by exactly `"\n\nCommand output: "` and then by stdout, which ends the text. |
| Exec.ErrorTextRoundTrip | index.ts:76-89 | Nothing is lost from the captured standard output: it is read back as whatever follows the `"\n\nCommand output: "` separator after the head. |
| Exec.ErrorEnvelope | index.ts:372-389 | The catch envelope is an error. Its text opens with the prefix and message. With no captured stdout it is exactly `"<prefix>: <message>"`; otherwise stdout follows the `"\n\nCommand output: "` separator and can be read back. |
| Classifiers.ValidateSchema | index.ts:53-89 | Not an error iff the run succeeded and stdout contains "Schema is valid"; the text is then exactly "Schema is valid.". A negative verdict contains both stderr and stdout. A rejected run gives the "Failed to validate schema" catch text: exactly the head when no stdout was captured, the head, separator and stdout otherwise. |
| Classifiers.MigrationsEnvelope | index.ts:125-151 | For a given failure glyph: valid iff stdout has the dry-run phrase and lacks the glyph, with `isError` the negation. An invalid text contains stderr and stdout. A rejection gives the "Failed to validate migrations" catch text, which is exactly the head when no stdout was captured. |
| Classifiers.ValidateMigrationsAsWritten | index.ts:125-136 | The verdict with the glyph literal exactly as the file spells it. |
| Classifiers.ValidateMigrations | index.ts:125-151 | The verdict with the glyph the schema tool prints (U+2718), with its texts and catch path; the catch text is exactly the head when no stdout was captured. |
| Classifiers.MigrationsGlyphMissed | index.ts:125 | A dry run that marks a failed item with U+2718 is accepted as written and rejected with the intended glyph. |
| Classifiers.VerifyLogin | index.ts:228-253 | Logged in iff the run succeeded and stdout contains "Stately UserID"; `isError` is the negation. The details echo stdout. The not-logged-in text and the message-only catch text are fixed. |
| Classifiers.SchemaPut | index.ts:278-298 | Published iff the run succeeded with an empty stderr; the text is then the success prefix followed by exactly stdout. A failure text contains stderr and stdout. A rejection keeps only the message. |
| LoginUrl.TokenEnd | index.ts:177 | The greedy `[\w-]+` run: every character up to the end is a token character, and the next one is not. |
| LoginUrl.FirstMatch | index.ts:177 | Finds the leftmost index where the prefix (ASCII case ignored) is followed by a token character, or proves there is none. |
| LoginUrl.ExtractUrl | index.ts:177-179 | No URL iff the pattern matches nowhere. A returned URL is the substring of stdout at the leftmost match: the prefix and then the longest token run. |
| LoginUrl.AttemptLogin | index.ts:174-217 | Success iff the run succeeded and stdout contains a match; the text is then the prompt followed by the first matched URL. Otherwise it is an error that shows stdout and stderr, or the "Failed to initiate login" catch text, which is exactly the head when no stdout was captured. |
| LoginUrl.ExtractUrlAt | index.ts:177-179 | When the leftmost match starts at `k`, the extracted URL is the text from `k` to the end of its token run. |
| LoginUrl.FindsUrlAfterText | index.ts:177 | Completeness: an exact activation URL anywhere in stdout, with no earlier match, is extracted whole. |
| LanguageTag.SegmentExtension | index.ts:427 | A segment's extension is empty or a suffix of the segment that starts with its one and only dot, and it is shorter than the segment. It is non-empty whenever some dot sits after the first character, unless the segment is `..`, which has none. |
| LanguageTag.Extname | index.ts:427 | `path.extname` on the last segment once trailing slashes are dropped. No contract of its own; `ExtnameShape` states its shape, and `ExtnameOfStem` and `NoExtensionNoTag` pin its value on names with and without an extension. |
| LanguageTag.ExtnameShape | index.ts:427 | The extension is empty or dot-led, free of `/`, and a suffix of the path once trailing slashes are dropped. |
| LanguageTag.LanguageTagOf | index.ts:426-440 | The tag is non-empty exactly when the extension is one of the seven table keys, and it is then that key's language. |
| LanguageTag.TagDependsOnlyOnExtension | index.ts:427-439 | Two names with the same extension get the same tag. |
| LanguageTag.ExtnameOfStem | index.ts:427 | `extname(stem + "." + ext)` is `"." + ext` for a non-empty, dot-free, slash-free `ext` and a stem whose last segment is not empty. |
| LanguageTag.TagOfKnownExtension | index.ts:429-439 | Each of the seven extensions maps to its language, whatever directory the file is in. |
| LanguageTag.ModFileHasNoTag | index.ts:427-439 | A `.mod` file such as `go.mod` gets the empty fence tag in any directory: `.mod` is not in the table. |
| LanguageTag.NoExtensionNoTag | index.ts:427-439 | A last segment with no dot, or with only a leading dot (a dotfile), gets the empty tag. |
| FileTree.CollectedUnderBase | index.ts:408 | Every collected path lies under the directory being walked. |
| FileTree.CollectAppend | index.ts:407-420 | The walk follows listing order: collecting two listings in a row is the first's files, then the second's. |
| FileTree.CollectCount | index.ts:402-423 | One output pair per non-directory entry anywhere in the tree; an empty tree gives none. |
| FileTree.CollectMembership | index.ts:402-423 | A (path, content) pair is collected iff the tree holds that file at that relative path. |
| FileTree.CollectedPathsDistinct | index.ts:402-423 | In a well-formed tree (distinct names per directory), no path is collected twice. |
| FileTree.NoDirectoryCollected | index.ts:410-419 | In a well-formed tree (distinct names per directory), no directory's path is ever among the collected files. |
| FileTree.CollectFiles | index.ts:402-423 | `collectFiles` as a walk over the listing. It has no contract of its own; its meaning is given by `CollectMembership` (exactly the files of the tree), `CollectCount`, `CollectAppend` (listing order), `CollectedUnderBase` and `CollectedPathsDistinct`. |
| FileTree.EntryHead | index.ts:407-419 | The files one entry contributes: the file itself, or the recursive walk of a directory under its joined path. No contract of its own; it is covered by the `CollectFiles` lemmas. |
| GenerateRender.BlocksAt | index.ts:359-361 | The i-th rendered block is the block of the i-th collected file. |
| GenerateRender.Block | index.ts:359-361 | One file's labelled, fenced block. No contract of its own; `RenderFilesLayout` places it in the text and `LanguageTag.LanguageTagOf` states its tag. |
| GenerateRender.Blocks | index.ts:359-361 | `files.map`: one block per file, so as many blocks as files; `BlocksAt` states which block sits at each index. |
| GenerateRender.JoinBlocksPart | index.ts:362 | In the joined text, each block sits at its offset. |
| GenerateRender.JoinBlocksSeparator | index.ts:362 | A blank line follows every block but the last, and the next block starts right after it. |
| GenerateRender.JoinBlocksLength | index.ts:362 | The joined text ends with the last block. |
| GenerateRender.JoinBlocks | index.ts:362 | `join('\n\n')`. No contract of its own; `JoinBlocksPart`, `JoinBlocksSeparator` and `JoinBlocksLength` together fix every character of the result. |
| GenerateRender.RenderFiles | index.ts:346-371 | An error, with exactly "No files were generated.", iff there are no files; otherwise a success opening with the header that names the language. |
| GenerateRender.RenderFilesLayout | index.ts:359-368 | After the header, in collection order, every file's labelled block is fenced with its language tag. |
| GenerateRender.RenderFilesEnd | index.ts:359-368 | A successful rendering ends exactly where the last file's block ends: nothing follows the last block. |
| GenerateRender.RenderFilesSeparator | index.ts:362 | In a successful rendering a blank line follows every file's block but the last. With `RenderFilesLayout` and `JoinBlocksSeparator` this fixes the whole text: the header, then the blocks in order, separated by blank lines. |
| Handlers.StateAfter | index.ts:20-32 | The workspace state after a trace. Provisioning makes it live: `stately schema init` creating the directory for the three schema tools, or `mkdtempSync` at lines 325 and 336 for schema-generate. A `finally` `rmSync` removes it. No contract of its own; `NoProvisionStaysAbsent`, `ProvisionedNeverAbsent` and `DisposeLastRemoves` state its meaning. |
| Handlers.NoProvisionStaysAbsent | index.ts:20-32 | A run that never provisions a workspace leaves nothing behind. |
| Handlers.ProvisionedNeverAbsent | index.ts:390-397 | Once provisioned, a workspace never returns to absent. |
| Handlers.DisposeLastRemoves | index.ts:390-397 | A run whose last step is the `finally` removal ends with the workspace removed. |
| Handlers.SchemaWorkspaceRun | index.ts:20-102 | The shared schema-tool shape. An init failure escapes with the init message and provisions nothing. Otherwise the schema is written before the command runs, the verdict is the classifier's, and the workspace ends removed on every path. |
| Handlers.ValidateSchemaRun | index.ts:40-102 | validate-schema leaves no workspace. It throws only on init failure, and its verdict tracks the phrase in the validator's output. |
| Handlers.ValidateMigrationsRunAsWritten | index.ts:112-164 | validate-migrations as written: it runs the dry-run put for the schema ID and leaves no workspace. Its verdict is the dry-run rule with the glyph literal as the file spells it. |
| Handlers.ValidateMigrationsRun | index.ts:112-164 | validate-migrations with the intended glyph U+2718: the same dry-run put, no workspace left, and a verdict that rejects any output containing U+2718. |
| Handlers.MigrationsRunGlyphMissed | index.ts:125-136 | For a dry run that marks a failed item with U+2718, the handler as written reports valid and the corrected handler reports an error. |
| Handlers.SchemaPutRun | index.ts:265-309 | schema-put runs the real put for the schema ID and leaves no workspace. It succeeds iff the command exits cleanly with empty stderr. |
| Handlers.AcceptedSchemaScenario | index.ts:40-64 | Any schema whose validator output contains the phrase anywhere, with any text before and after it, gets "Schema is valid." with no error, and its workspace is removed. |
| Handlers.GenerateBody | index.ts:339-389 | The generate `try` block: after a clean generation and listing, an error iff the tree holds no file, with the rendered files otherwise. A generator rejection gives the "Failed to generate schema" catch envelope. A failed listing gives an error whose text is exactly `"Failed to generate schema: <message>"`, since a filesystem error carries no stdout. |
| Handlers.CompletedTrace | index.ts:323-397 | A generate run that gets past its setup ends with the directory removed. It runs `go mod init` exactly for Go, and before the generator. |
| Handlers.GenerateRunAsWritten | index.ts:319-398 | schema-generate as written. It throws exactly when `mkdtempSync` fails (with that error) or, for Go, when `go mod init` fails (with the fixed Go message). Otherwise it returns the generate body's envelope and leaves no workspace. |
| Handlers.GoInitFailureLeaks | index.ts:323-339 | On the Go path, a failing `go mod init` throws with the directory still live. |
| Handlers.GenerateRun | index.ts:319-398 | Corrected schema-generate leaves no workspace on every path, and runs `go mod init` exactly for Go, before the generator. It throws only on directory-creation or module-init failure. When it returns, the envelope is the generate body's: "no files", the rendering, or a failure. |
| Handlers.GoModCollected | index.ts:402-423 | A `go.mod` at the top of the output directory is among the collected files, with its content. |
| Handlers.GoModuleFileIsRendered | index.ts:323-371 | For Go, once `go mod init` and the generator succeed and the listing holds `go.mod`, that file is collected. The handler then returns a non-error rendering that opens with the Go header and is never "No files were generated.". |
| Handlers.GoRunRendersListing | index.ts:339-371 | For Go, after a clean `go mod init` and generation over a walk that finds some file, the handler returns a non-error rendering under the Go header, never "No files were generated.". |
| Handlers.GoPathReturnsBody | index.ts:323-398 | Once `go mod init` succeeds, the handler as written and the corrected one are the same run, and both return the generate body. |
| Handlers.NonGoHandlersAgree | index.ts:319-398 | For every language but Go the handler as written and the corrected one are the same run: the leak needs the Go module step. |

## Left out

- Process spawning (`execAsync`), the `stately` and `go` programs, and every filesystem call (`writeFileSync`, `mkdtempSync`, `readdirSync`, `readFileSync`, `rmSync`): their results are parameters of the model.
- Temporary-directory naming (`Date.now()`, `Math.random()`, the `mkdtemp` suffix): it is nondeterministic and decides no verdict.
- MCP server registration, the zod input schemas, the stdio transport and `console.error` logging: these are library wiring and I/O.
- Async interleaving of handlers: no verdict depends on it.
- A failing `rmSync` in a `finally` block is swallowed and only logged. The model treats an attempted removal as done.
- A failing `stately schema init` provisions nothing in the model. The CLI is what creates the directory, so whatever it leaves behind on failure is outside this file.
- Symbolic links, special files and non-UTF-8 contents: `collectFiles` reads every non-directory entry as UTF-8 text. The model has only files and directories, with string contents.
- A read that fails partway through `collectFiles` is modelled as the whole listing failing (`ListFailed`). The partial list never reaches the response anyway.
- A filesystem error inside the generate `try` has no `stdout` property. The model therefore composes its catch text with an empty standard output.
- The concrete Go scenario with `main.go` and `README.md` is not a separate lemma. For Go the output directory also holds the `go.mod` that `go mod init` writes, so the rendering has a third block, fenced with an empty tag. The parts are covered by `LanguageTag.TagOfKnownExtension` (`.go` gives go, `.md` gives markdown), `LanguageTag.ModFileHasNoTag` (`go.mod` gets no tag), `GenerateRender.RenderFilesLayout` (one block per file, in order) and `Handlers.GenerateRun` (`go mod init` comes before generation).
- That `go mod init` writes `go.mod` is not derived: the listing is a parameter. `Handlers.GoModuleFileIsRendered` takes the file's presence as a precondition. It shows that, under it, a Go run never answers "No files were generated.".
- Attempt-login and verify-login use no workspace. Their handlers are exactly `LoginUrl.AttemptLogin` and `Classifiers.VerifyLogin`, with no lifecycle trace.

## Findings

| source | as written | input that shows it | evidently intended | confidence | as-written member | corrected member |
|---|---|---|---|---|---|---|
| index.ts:125 | The failure-glyph literal is the three characters U+00E2 U+0153 U+02DC: the UTF-8 bytes of ✘ (U+2718) decoded as Windows-1252. | A successful dry run whose stdout holds "Dry Run: Schema was not published." followed by a line starting with ✘ is reported as valid. | Reject any dry run whose output contains U+2718. | high; not executed | Classifiers.ValidateMigrationsAsWritten, Classifiers.MigrationsGlyphMissed, Handlers.ValidateMigrationsRunAsWritten, Handlers.MigrationsRunGlyphMissed | Classifiers.ValidateMigrations, Handlers.ValidateMigrationsRun |
| index.ts:323-339 | For `go`, `mkdtempSync` and `go mod init` run before the `try`. A `go mod init` failure is rethrown from there, so the `finally` that removes the output directory never runs. | language `go`, `mkdtempSync` succeeds, `go mod init` fails (Go not installed). | The output directory is removed on every path, including this one. | high; not executed | Handlers.GenerateRunAsWritten, Handlers.GoInitFailureLeaks | Handlers.GenerateRun |

=== FILE: classifiers.dfy ===
/**
 The verdicts of the four handlers whose success test is a plain substring or
 emptiness test on the captured text: validate-schema (index.ts:40-93),
 validate-migrations (index.ts:112-155), verify-login (index.ts:225-255) and
 schema-put (index.ts:265-300). Attempt-login lives in LoginUrl.
 */
module Classifiers {
  import opened Text
  import opened Exec

  const SchemaValidPhrase := "Schema is valid"
  const SchemaValidText := "Schema is valid."

  /**
   validate-schema: valid exactly when standard output mentions the phrase.
   A rejected run goes to the `catch` envelope.
   */
  function ValidateSchema(r: ExecResult): (e: Envelope)
    ensures e.isError <==> !(r.Ok? && Occurs(r.stdout, SchemaValidPhrase))
    ensures !e.isError ==> e.text == SchemaValidText
    ensures r.Ok? && e.isError ==> Occurs(e.text, r.stderr) && Occurs(e.text, r.stdout)
    ensures r.Err? ==> ErrorHead("Failed to validate schema", r.message) <= e.text
    ensures r.Err? ==> CommandOutputOf("Failed to validate schema", r.message, e.text) == r.stdout
    ensures r.Err? && r.stdout == "" ==> e.text == ErrorHead("Failed to validate schema", r.message)
  {
    match r
    case Ok(stdout, stderr) =>
      if Includes(stdout, SchemaValidPhrase) then Envelope(SchemaValidText, false)
      else
        var text := "Schema is invalid. Error: " + stderr + "\nOutput: " + stdout;
        OccursInTemplate("Schema is invalid. Error: ", stderr, "\nOutput: ", stdout);
        Envelope(text, true)
    case Err(_, _) => ErrorEnvelope("Failed to validate schema", r)
  }

  const DryRunPhrase := "Dry Run: Schema was not published."

  /** The glyph the schema tool prints before each failed migration item (U+2718). */
  const FailureGlyph := "\U{2718}"

  /**
   The glyph literal as it stands in index.ts:125: the three characters
   U+00E2 U+0153 U+02DC, which are the UTF-8 bytes of U+2718 read as
   Windows-1252 text.
   */
  const FailureGlyphAsWritten := "\U{E2}\U{153}\U{2DC}"

  /** The validate-migrations decision, for a given failure glyph. */
  function MigrationsEnvelope(glyph: string, r: ExecResult): (e: Envelope)
    ensures e.isError <==> !(r.Ok? && Occurs(r.stdout, DryRunPhrase) && !Occurs(r.stdout, glyph))
    ensures r.Ok? && !e.isError ==> e.text == "Migrations are valid."
    ensures r.Ok? && e.isError ==> Occurs(e.text, r.stderr) && Occurs(e.text, r.stdout)
    ensures r.Err? ==> ErrorHead("Failed to validate migrations", r.message) <= e.text
    ensures r.Err? ==> CommandOutputOf("Failed to validate migrations", r.message, e.text) == r.stdout
    ensures r.Err? && r.stdout == "" ==> e.text == ErrorHead("Failed to validate migrations", r.message)
  {
    match r
    case Ok(stdout, stderr) =>
      var isValid := Includes(stdout, DryRunPhrase) && !Includes(stdout, glyph);
      if isValid then Envelope("Migrations are valid.", false)
      else
        var text := "Migrations are invalid. Error: " + stderr + " Output: " + stdout;
        OccursInTemplate("Migrations are invalid. Error: ", stderr, " Output: ", stdout);
        Envelope(text, true)
    case Err(_, _) => ErrorEnvelope("Failed to validate migrations", r)
  }

  /** validate-migrations exactly as index.ts:125 tests it. */
  function ValidateMigrationsAsWritten(r: ExecResult): (e: Envelope)
    ensures e.isError <==> !(r.Ok? && Occurs(r.stdout, DryRunPhrase) && !Occurs(r.stdout, FailureGlyphAsWritten))
  {
    MigrationsEnvelope(FailureGlyphAsWritten, r)
  }

  /** validate-migrations with the failure glyph the tool actually prints. */
  function ValidateMigrations(r: ExecResult): (e: Envelope)
    ensures e.isError <==> !(r.Ok? && Occurs(r.stdout, DryRunPhrase) && !Occurs(r.stdout, FailureGlyph))
    ensures r.Ok? && !e.isError ==> e.text == "Migrations are valid."
    ensures r.Ok? && e.isError ==> Occurs(e.text, r.stderr) && Occurs(e.text, r.stdout)
    ensures r.Err? ==> ErrorHead("Failed to validate migrations", r.message) <= e.text
    ensures r.Err? ==> CommandOutputOf("Failed to validate migrations", r.message, e.text) == r.stdout
    ensures r.Err? && r.stdout == "" ==> e.text == ErrorHead("Failed to validate migrations", r.message)
  {
    MigrationsEnvelope(FailureGlyph, r)
  }

  /** The dry-run phrase is plain ASCII. */
  lemma DryRunPhraseAscii()
    ensures forall j :: 0 <= j < |DryRunPhrase| ==> DryRunPhrase[j] < '\U{80}'
  {
  }

  /**
   A dry run that reports a failed item with U+2718 passes the test as
   written, and is rejected once the glyph is the one the tool prints.
   */
  lemma MigrationsGlyphMissed()
    ensures var r := Ok(DryRunPhrase + "\n" + FailureGlyph, "");
            !ValidateMigrationsAsWritten(r).isError && ValidateMigrations(r).isError
  {
    var out := DryRunPhrase + "\n" + FailureGlyph;
    OccursSpliced("", DryRunPhrase, "\n" + FailureGlyph);
    assert "" + DryRunPhrase + ("\n" + FailureGlyph) == out;
    OccursSpliced(DryRunPhrase + "\n", FailureGlyph, "");
    assert DryRunPhrase + "\n" + FailureGlyph + "" == out;
    DryRunPhraseAscii();
    forall j | 0 <= j < |out|
      ensures out[j] != FailureGlyphAsWritten[0]
    {
      if j < |DryRunPhrase| {
        assert out[j] == DryRunPhrase[j];
      }
    }
    AbsentCharRulesOut(out, FailureGlyphAsWritten, 0);
  }

  const LoggedInPhrase := "Stately UserID"

  /**
   verify-login: logged in exactly when `whoami` output names a user ID; the
   details are echoed verbatim. Its `catch` keeps only the error message.
   */
  function VerifyLogin(r: ExecResult): (e: Envelope)
    ensures !e.isError <==> r.Ok? && Occurs(r.stdout, LoggedInPhrase)
    ensures !e.isError ==> Occurs(e.text, r.stdout)
    ensures r.Ok? && e.isError ==> e.text == "You are not logged in."
    ensures r.Err? ==> e.text == "Failed to verify login: " + r.message
  {
    match r
    case Ok(stdout, _) =>
      if Includes(stdout, LoggedInPhrase) then
        OccursSpliced("You are logged in. Details: ", stdout, "");
        assert "You are logged in. Details: " + stdout + "" == "You are logged in. Details: " + stdout;
        Envelope("You are logged in. Details: " + stdout, false)
      else Envelope("You are not logged in.", true)
    case Err(message, _) => Envelope("Failed to verify login: " + message, true)
  }

  const PublishedPrefix := "Schema published successfully: "

  /**
   schema-put: published exactly when the standard error stream is empty,
   whatever the standard output says. Its `catch` keeps only the message.
   */
  function SchemaPut(r: ExecResult): (e: Envelope)
    ensures !e.isError <==> r.Ok? && r.stderr == ""
    ensures !e.isError ==> PublishedPrefix <= e.text && e.text[|PublishedPrefix|..] == r.stdout
    ensures r.Ok? && e.isError ==> Occurs(e.text, r.stderr) && Occurs(e.text, r.stdout)
    ensures r.Err? ==> e.text == "Failed to publish schema! " + r.message
  {
    match r
    case Ok(stdout, stderr) =>
      if stderr == "" then Envelope(PublishedPrefix + stdout, false)
      else
        var text := "Failed to publish schema: " + stderr + " " + stdout;
        OccursInTemplate("Failed to publish schema: ", stderr, " ", stdout);
        Envelope(text, true)
    case Err(message, _) => Envelope("Failed to publish schema! " + message, true)
  }
}

=== FILE: exec.dfy ===
/**
 What a handler gets back from the external program, what it hands back to
 the tool-invocation layer, and the error text its `catch` path composes
 (index.ts:76-93 and the matching blocks of the other handlers).
 */
module Exec {
  import opened Text

  /**
   The settled result of `execAsync`. `Ok` is a zero exit with both streams
   captured. `Err` is the rejection: a spawn failure, a non-zero exit, or any
   exception thrown inside the handler's `try`. Its `stdout` is `""` when the
   error object carries no `stdout` property, which is what `|| ''` makes of it.
   */
  datatype ExecResult =
    | Ok(stdout: string, stderr: string)
    | Err(message: string, stdout: string)

  /**
   The response: its single text block and the error flag. A handler that
   leaves `isError` out (the login prompt, generated files) is `isError == false`.
   */
  datatype Envelope = Envelope(text: string, isError: bool)

  const OutputSeparator := "\n\nCommand output: "

  /** The head of an error text: `"<prefix>: <message>"`. */
  function ErrorHead(prefix: string, message: string): string
  {
    prefix + ": " + message
  }

  /**
   The `catch` text: the head, followed by the captured standard output
   only when there is some (an empty string is falsy in the template).
   */
  function ErrorText(prefix: string, message: string, stdout: string): (t: string)
    ensures ErrorHead(prefix, message) <= t
    ensures stdout == "" <==> t == ErrorHead(prefix, message)
    ensures stdout != "" ==> Occurs(t, stdout)
    ensures stdout != "" ==>
              |t| == |ErrorHead(prefix, message)| + |OutputSeparator| + |stdout|
              && t[|ErrorHead(prefix, message)|..][..|OutputSeparator|] == OutputSeparator
              && t[|ErrorHead(prefix, message)| + |OutputSeparator|..] == stdout
  {
    var head := ErrorHead(prefix, message);
    if stdout == "" then head
    else
      OccursSpliced(head + OutputSeparator, stdout, "");
      assert head + OutputSeparator + stdout + "" == head + OutputSeparator + stdout;
      head + OutputSeparator + stdout
  }

  /**
   Reads the command output back out of an error text: what follows the head
   and the separator, or empty when the separator is not there.
   */
  function CommandOutputOf(prefix: string, message: string, t: string): string
  {
    var h := |ErrorHead(prefix, message)|;
    var n := h + |OutputSeparator|;
    if |t| > n && t[h..n] == OutputSeparator then t[n..] else ""
  }

  /** The error text loses nothing: its command output is exactly the captured stdout. */
  lemma ErrorTextRoundTrip(prefix: string, message: string, stdout: string)
    ensures CommandOutputOf(prefix, message, ErrorText(prefix, message, stdout)) == stdout
  {
  }

  /** The envelope every handler with a full `catch` returns for an `Err`. */
  function ErrorEnvelope(prefix: string, r: ExecResult): (e: Envelope)
    requires r.Err?
    ensures e.isError
    ensures ErrorHead(prefix, r.message) <= e.text
    ensures r.stdout == "" ==> e.text == ErrorHead(prefix, r.message)
    ensures CommandOutputOf(prefix, r.message, e.text) == r.stdout
  {
    ErrorTextRoundTrip(prefix, r.message, r.stdout);
    Envelope(ErrorText(prefix, r.message, r.stdout), true)
  }
}

=== FILE: file_tree.dfy ===
/**
 `collectFiles` (index.ts:402-423): flattens the generator's output directory
 into (relative path, content) pairs. A directory is the sequence of entries
 `readdirSync` enumerates, in that order; every entry that is not a
 directory is read as a file.
 */
module FileTree {
  import opened Text

  datatype Entry =
    | File(name: string, content: string)
    | Dir(name: string, entries: seq<Entry>)

  datatype CollectedFile = CollectedFile(name: string, content: string)

  /** What `path.join(base, name)` adds in front of an entry name. */
  function DirPrefix(base: string): string
  {
    if base == "" then "" else base + "/"
  }

  /**
   `path.join(base, name)` for the names a directory listing yields (non-empty,
   no `/`, neither `.` nor `..`), where joining normalises nothing.
   */
  function JoinPath(base: string, name: string): string
  {
    DirPrefix(base) + name
  }

  /** `collectFiles(root, base)`: a pre-order walk over the listing. */
  function CollectFiles(entries: seq<Entry>, base: string): (files: seq<CollectedFile>)
    decreases entries, 1
  {
    if |entries| == 0 then []
    else
      EntryHead(entries[0], base) + CollectFiles(entries[1..], base)
  }

  /** The files `collectFiles` gathers for one entry of a listing. */
  function EntryHead(e: Entry, base: string): seq<CollectedFile>
    decreases e, 0
  {
    match e
    case File(name, content) => [CollectedFile(JoinPath(base, name), content)]
    case Dir(name, sub) => CollectFiles(sub, JoinPath(base, name))
  }

  /** Every collected path is relative to the root: it lies under the directory being walked. */
  lemma {:induction false} CollectedUnderBase(entries: seq<Entry>, base: string)
    ensures forall f :: f in CollectFiles(entries, base) ==> DirPrefix(base) <= f.name
    decreases entries
  {
    if |entries| > 0 {
      var rel := JoinPath(base, entries[0].name);
      CollectedUnderBase(entries[1..], base);
      if entries[0].Dir? && DirPrefix(base) != "" {
        CollectedUnderBase(entries[0].entries, rel);
        assert DirPrefix(rel) == DirPrefix(base) + entries[0].name + "/";
        forall f | f in CollectFiles(entries[0].entries, rel)
          ensures DirPrefix(base) <= f.name
        {
          assert DirPrefix(rel) <= f.name;
          assert f.name[..|DirPrefix(base)|] == DirPrefix(rel)[..|DirPrefix(base)|];
        }
      }
    }
  }

  /** Reference definition: the tree holds a file with this relative path and content. */
  ghost predicate HasFile(entries: seq<Entry>, base: string, path: string, content: string)
    decreases entries
  {
    exists i :: 0 <= i < |entries| && match entries[i]
      case File(n, c) => JoinPath(base, n) == path && c == content
      case Dir(n, sub) => HasFile(sub, JoinPath(base, n), path, content)
  }

  /** Number of non-directory entries anywhere in the tree. */
  function FileCount(entries: seq<Entry>): nat
    decreases entries
  {
    if |entries| == 0 then 0
    else
      (match entries[0] case File(_, _) => 1 case Dir(_, sub) => FileCount(sub))
      + FileCount(entries[1..])
  }

  /** Listings concatenate: the walk visits the first listing's files, then the second's. */
  lemma {:induction false} CollectAppend(a: seq<Entry>, b: seq<Entry>, base: string)
    ensures CollectFiles(a + b, base) == CollectFiles(a, base) + CollectFiles(b, base)
    decreases a
  {
    if |a| == 0 {
      assert a + b == b;
    } else {
      var ab := a + b;
      assert ab[0] == a[0];
      assert ab[1..] == a[1..] + b;
      var head := EntryHead(a[0], base);
      assert CollectFiles(ab, base) == head + CollectFiles(ab[1..], base);
      assert CollectFiles(a, base) == head + CollectFiles(a[1..], base);
      CollectAppend(a[1..], b, base);
    }
  }

  /** One output pair per file of the tree. */
  lemma {:induction false} CollectCount(entries: seq<Entry>, base: string)
    ensures |CollectFiles(entries, base)| == FileCount(entries)
    decreases entries
  {
    if |entries| > 0 {
      match entries[0] {
        case File(_, _) =>
        case Dir(n, sub) => CollectCount(sub, JoinPath(base, n));
      }
      CollectCount(entries[1..], base);
    }
  }

  /** The walk emits exactly the files of the tree, each under its path relative to the root. */
  lemma {:induction false} CollectMembership(entries: seq<Entry>, base: string, path: string, content: string)
    ensures CollectedFile(path, content) in CollectFiles(entries, base)
            <==> HasFile(entries, base, path, content)
    decreases entries
  {
    if |entries| > 0 {
      var f := CollectedFile(path, content);
      var rest := CollectFiles(entries[1..], base);
      CollectMembership(entries[1..], base, path, content);
      var inHead := match entries[0]
        case File(n, c) => JoinPath(base, n) == path && c == content
        case Dir(n, sub) => HasFile(sub, JoinPath(base, n), path, content);
      match entries[0] {
        case File(n, c) =>
        case Dir(n, sub) => CollectMembership(sub, JoinPath(base, n), path, content);
      }
      assert f in CollectFiles(entries, base) <==> inHead || f in rest;
      if HasFile(entries, base, path, content) {
        var i :| 0 <= i < |entries| && match entries[i]
          case File(n, c) => JoinPath(base, n) == path && c == content
          case Dir(n, sub) => HasFile(sub, JoinPath(base, n), path, content);
        if i > 0 {
          assert entries[1..][i - 1] == entries[i];
        }
      }
      if HasFile(entries[1..], base, path, content) {
        var i :| 0 <= i < |entries[1..]| && match entries[1..][i]
          case File(n, c) => JoinPath(base, n) == path && c == content
          case Dir(n, sub) => HasFile(sub, JoinPath(base, n), path, content);
        assert entries[i + 1] == entries[1..][i];
      }
    }
  }

  /** Names a directory listing can hold: non-empty, without `/`, neither `.` nor `..`. */
  ghost predicate ValidName(n: string)
  {
    n != "" && n != "." && n != ".." && forall k :: 0 <= k < |n| ==> n[k] != '/'
  }

  /** A real directory tree: valid names, each name once per directory. */
  ghost predicate WellFormed(entries: seq<Entry>)
    decreases entries
  {
    && (forall i :: 0 <= i < |entries| ==> ValidName(entries[i].name))
    && (forall i, j :: 0 <= i < j < |entries| ==> entries[i].name != entries[j].name)
    && (forall i :: 0 <= i < |entries| && entries[i].Dir? ==> WellFormed(entries[i].entries))
  }

  /** The tree holds a directory at this relative path. */
  ghost predicate HasDir(entries: seq<Entry>, base: string, path: string)
    decreases entries
  {
    exists i :: 0 <= i < |entries| && entries[i].Dir?
      && (JoinPath(base, entries[i].name) == path
          || HasDir(entries[i].entries, JoinPath(base, entries[i].name), path))
  }

  /** No two collected files share a path. */
  ghost predicate DistinctNames(files: seq<CollectedFile>)
  {
    forall i, j :: 0 <= i < j < |files| ==> files[i].name != files[j].name
  }

  /** The text before the first `/` (all of it when there is none). */
  function FirstSegment(x: string): (s: string)
    ensures |s| <= |x| && s == x[..|s|]
    ensures forall k :: 0 <= k < |s| ==> s[k] != '/'
    ensures |s| == |x| || x[|s|] == '/'
    decreases |x|
  {
    if |x| == 0 || x[0] == '/' then "" else [x[0]] + FirstSegment(x[1..])
  }

  /** A slash-free name followed by nothing or by `/...` is its own first segment. */
  lemma FirstSegmentOfName(n: string, t: string)
    requires forall k :: 0 <= k < |n| ==> n[k] != '/'
    requires t == "" || t[0] == '/'
    ensures FirstSegment(n + t) == n
  {
    var x := n + t;
    var s := FirstSegment(x);
    assert forall k :: 0 <= k < |n| ==> x[k] == n[k];
    assert |n| < |x| ==> x[|n|] == t[0] == '/';
    assert |s| == |n|;
    assert s == x[..|n|] == n;
  }

  /** The entry name a path below `base` starts with. */
  function Label(base: string, p: string): string
    requires DirPrefix(base) <= p
  {
    FirstSegment(p[|DirPrefix(base)|..])
  }

  /** A path built as `base/name` or `base/name/...` carries `name` as its label. */
  lemma LabelOfJoin(base: string, name: string, p: string)
    requires ValidName(name)
    requires p == JoinPath(base, name) || JoinPath(base, name) + "/" <= p
    ensures DirPrefix(base) <= p && Label(base, p) == name
  {
    var pre := DirPrefix(base);
    if p == JoinPath(base, name) {
      assert p[|pre|..] == name + "";
      FirstSegmentOfName(name, "");
    } else {
      var q := JoinPath(base, name) + "/";
      assert p[..|pre|] == q[..|pre|];
      assert p[|pre|..] == name + p[|pre| + |name|..];
      assert p[|pre| + |name|] == q[|pre| + |name|] == '/';
      FirstSegmentOfName(name, p[|pre| + |name|..]);
    }
  }

  /** Directory prefixes nest: the prefix of `base/n` extends the prefix of `base`. */
  lemma PrefixNests(base: string, n: string, p: string)
    requires DirPrefix(JoinPath(base, n)) <= p
    ensures DirPrefix(base) <= p
  {
  }

  /** Every file gathered for an entry is labelled with the entry's name. */
  lemma EntryHeadLabel(e: Entry, base: string)
    requires ValidName(e.name)
    ensures forall f :: f in EntryHead(e, base) ==>
              DirPrefix(base) <= f.name && Label(base, f.name) == e.name
    ensures e.Dir? ==> forall f :: f in EntryHead(e, base) ==>
              JoinPath(base, e.name) + "/" <= f.name
  {
    var rel := JoinPath(base, e.name);
    if e.Dir? {
      CollectedUnderBase(e.entries, rel);
      assert DirPrefix(rel) == rel + "/";
    }
    forall f | f in EntryHead(e, base)
      ensures DirPrefix(base) <= f.name && Label(base, f.name) == e.name
    {
      LabelOfJoin(base, e.name, f.name);
    }
  }

  /** Every collected file is labelled with the name of one entry of the listing. */
  lemma {:induction false} CollectLabels(entries: seq<Entry>, base: string)
    requires forall i :: 0 <= i < |entries| ==> ValidName(entries[i].name)
    ensures forall f :: f in CollectFiles(entries, base) ==>
              DirPrefix(base) <= f.name
              && exists i :: 0 <= i < |entries| && Label(base, f.name) == entries[i].name
    decreases entries
  {
    if |entries| > 0 {
      EntryHeadLabel(entries[0], base);
      CollectLabels(entries[1..], base);
      forall f | f in CollectFiles(entries, base)
        ensures DirPrefix(base) <= f.name
                && exists i :: 0 <= i < |entries| && Label(base, f.name) == entries[i].name
      {
        if f !in EntryHead(entries[0], base) {
          var i :| 0 <= i < |entries[1..]| && Label(base, f.name) == entries[1..][i].name;
          assert entries[i + 1] == entries[1..][i];
        }
      }
    }
  }

  /** Concatenating two path-disjoint duplicate-free lists keeps them duplicate-free. */
  lemma DistinctConcat(a: seq<CollectedFile>, b: seq<CollectedFile>)
    requires DistinctNames(a) && DistinctNames(b)
    requires forall x, y :: x in a && y in b ==> x.name != y.name
    ensures DistinctNames(a + b)
  {
  }

  /** In a real tree every file is collected once: no two pairs share a path. */
  lemma {:induction false} CollectedPathsDistinct(entries: seq<Entry>, base: string)
    requires WellFormed(entries)
    ensures DistinctNames(CollectFiles(entries, base))
    decreases entries
  {
    if |entries| > 0 {
      var e := entries[0];
      var head := EntryHead(e, base);
      var rest := CollectFiles(entries[1..], base);
      if e.Dir? {
        CollectedPathsDistinct(e.entries, JoinPath(base, e.name));
      }
      assert WellFormed(entries[1..]) by {
        forall i | 0 <= i < |entries[1..]|
          ensures entries[1..][i] == entries[i + 1]
        {
        }
      }
      CollectedPathsDistinct(entries[1..], base);
      EntryHeadLabel(e, base);
      CollectLabels(entries[1..], base);
      forall x, y | x in head && y in rest
        ensures x.name != y.name
      {
        var i :| 0 <= i < |entries[1..]| && Label(base, y.name) == entries[1..][i].name;
        assert entries[1..][i] == entries[i + 1];
      }
      DistinctConcat(head, rest);
    }
  }

  /** A directory's path lies below the directory being walked, labelled with its top-level entry. */
  lemma {:induction false} DirPathUnderBase(entries: seq<Entry>, base: string, p: string)
    requires HasDir(entries, base, p)
    ensures DirPrefix(base) <= p
    decreases entries
  {
    var i :| 0 <= i < |entries| && entries[i].Dir?
      && (JoinPath(base, entries[i].name) == p
          || HasDir(entries[i].entries, JoinPath(base, entries[i].name), p));
    var rel := JoinPath(base, entries[i].name);
    if rel != p {
      DirPathUnderBase(entries[i].entries, rel, p);
      PrefixNests(base, entries[i].name, p);
    }
  }

  /** In a real tree no directory is ever reported as a collected file. */
  lemma {:induction false} NoDirectoryCollected(entries: seq<Entry>, base: string, p: string)
    requires WellFormed(entries)
    requires HasDir(entries, base, p)
    ensures forall f :: f in CollectFiles(entries, base) ==> f.name != p
    decreases entries
  {
    var i :| 0 <= i < |entries| && entries[i].Dir?
      && (JoinPath(base, entries[i].name) == p
          || HasDir(entries[i].entries, JoinPath(base, entries[i].name), p));
    var e := entries[i];
    var rel := JoinPath(base, e.name);
    if rel != p {
      DirPathUnderBase(e.entries, rel, p);
      assert DirPrefix(rel) == rel + "/";
    }
    LabelOfJoin(base, e.name, p);
    forall f | f in CollectFiles(entries, base)
      ensures f.name != p
    {
      var k := IndexOfEntry(entries, base, f);
      EntryHeadLabel(entries[k], base);
      if k == i {
        if rel == p {
          assert |f.name| > |p|;
        } else {
          NoDirectoryCollected(e.entries, rel, p);
        }
      }
    }
  }

  /** The entry of the listing a collected file was gathered for. */
  lemma {:induction false} IndexOfEntry(entries: seq<Entry>, base: string, f: CollectedFile) returns (k: nat)
    requires f in CollectFiles(entries, base)
    ensures k < |entries| && f in EntryHead(entries[k], base)
    decreases entries
  {
    if f in EntryHead(entries[0], base) {
      k := 0;
    } else {
      var k' := IndexOfEntry(entries[1..], base, f);
      k := k' + 1;
    }
  }
}

=== FILE: generate_render.dfy ===
/**
 The text schema-generate returns (index.ts:346-371): an error when nothing
 was generated, otherwise a header naming the language followed by one
 labelled, fenced block per collected file, joined by blank lines.
 */
module GenerateRender {
  import opened Text
  import opened Exec
  import opened FileTree
  import opened LanguageTag

  /** The generator targets the tool's input schema accepts. */
  datatype Language = TypeScript | Python | Ruby | Go

  function LanguageName(l: Language): string
  {
    match l
    case TypeScript => "typescript"
    case Python => "python"
    case Ruby => "ruby"
    case Go => "go"
  }

  const NoFilesText := "No files were generated."
  const BlockSeparator := "\n\n"

  function Header(l: Language): string
  {
    "Generated the following files for language " + LanguageName(l) + ":\n\n"
  }

  /** One file: its relative path as a label, then its content fenced with its language tag. */
  function Block(f: CollectedFile): string
  {
    "File: " + f.name + "\n" + "Contents:\n```" + LanguageTagOf(f.name) + "\n" + f.content + "\n```"
  }

  /** `files.map(Block)`. */
  function Blocks(files: seq<CollectedFile>): (bs: seq<string>)
    ensures |bs| == |files|
  {
    seq(|files|, k requires 0 <= k < |files| => Block(files[k]))
  }

  /** The `i`-th block is the block of the `i`-th file. */
  lemma BlocksAt(files: seq<CollectedFile>, i: nat)
    requires i < |files|
    ensures Blocks(files)[i] == Block(files[i])
  {
  }

  /** `parts.join('\n\n')`. */
  function JoinBlocks(parts: seq<string>): string
    decreases |parts|
  {
    if |parts| == 0 then ""
    else if |parts| == 1 then parts[0]
    else parts[0] + BlockSeparator + JoinBlocks(parts[1..])
  }

  /** Where `parts[i]` starts in the joined text. */
  function BlockOffset(parts: seq<string>, i: nat): nat
    requires i < |parts|
    decreases i
  {
    if i == 0 then 0 else |parts[0]| + |BlockSeparator| + BlockOffset(parts[1..], i - 1)
  }

  /** Joining more than one part puts the first, then a separator, then the rest joined. */
  lemma JoinBlocksUnfold(parts: seq<string>)
    requires |parts| > 1
    ensures JoinBlocks(parts) == (parts[0] + BlockSeparator) + JoinBlocks(parts[1..])
  {
  }

  /** Each part sits in the joined text at its offset. */
  lemma {:induction false} JoinBlocksPart(parts: seq<string>, i: nat)
    requires i < |parts|
    ensures OccursAt(JoinBlocks(parts), parts[i], BlockOffset(parts, i))
    decreases i
  {
    if |parts| == 1 {
      assert JoinBlocks(parts)[0..|parts[0]|] == parts[0];
    } else {
      var h := parts[0] + BlockSeparator;
      var tail := JoinBlocks(parts[1..]);
      JoinBlocksUnfold(parts);
      if i == 0 {
        assert (h + tail)[0..|parts[0]|] == parts[0];
      } else {
        JoinBlocksPart(parts[1..], i - 1);
        assert parts[1..][i - 1] == parts[i];
        OccursAtShift(h, tail, parts[i], BlockOffset(parts[1..], i - 1));
      }
    }
  }

  /** A blank-line separator follows every part but the last, and the next part starts right after it. */
  lemma {:induction false} JoinBlocksSeparator(parts: seq<string>, i: nat)
    requires i + 1 < |parts|
    ensures OccursAt(JoinBlocks(parts), BlockSeparator, BlockOffset(parts, i) + |parts[i]|)
    ensures BlockOffset(parts, i + 1) == BlockOffset(parts, i) + |parts[i]| + |BlockSeparator|
    decreases i
  {
    var h := parts[0] + BlockSeparator;
    var tail := JoinBlocks(parts[1..]);
    JoinBlocksUnfold(parts);
    if i == 0 {
      assert (h + tail)[|parts[0]|..|parts[0]| + |BlockSeparator|] == BlockSeparator;
      assert BlockOffset(parts[1..], 0) == 0;
    } else {
      JoinBlocksSeparator(parts[1..], i - 1);
      assert parts[1..][i - 1] == parts[i];
      OccursAtShift(h, tail, BlockSeparator, BlockOffset(parts[1..], i - 1) + |parts[i]|);
    }
  }

  /** The joined text ends with the last part. */
  lemma {:induction false} JoinBlocksLength(parts: seq<string>)
    requires |parts| > 0
    ensures |JoinBlocks(parts)| == BlockOffset(parts, |parts| - 1) + |parts[|parts| - 1]|
    decreases |parts|
  {
    if |parts| > 1 {
      JoinBlocksUnfold(parts);
      JoinBlocksLength(parts[1..]);
      assert parts[1..][|parts| - 2] == parts[|parts| - 1];
    }
  }

  /** A header followed by the blocks of the files, joined by blank lines. */
  function RenderText(h: string, files: seq<CollectedFile>): string
  {
    h + JoinBlocks(Blocks(files))
  }

  /**
   The rendered result: an error with a fixed text exactly when nothing was
   generated; otherwise a success that opens with the header naming the
   language.
   */
  function RenderFiles(l: Language, files: seq<CollectedFile>): (e: Envelope)
    ensures e.isError <==> files == []
    ensures files == [] ==> e.text == NoFilesText
    ensures files != [] ==> Header(l) <= e.text
  {
    if |files| == 0 then Envelope(NoFilesText, true)
    else Envelope(RenderText(Header(l), files), false)
  }

  /** A successful rendering can never be mistaken for the no-files text. */
  lemma RenderedIsNotNoFilesText(l: Language, files: seq<CollectedFile>)
    requires files != []
    ensures RenderFiles(l, files).text != NoFilesText
  {
    assert |Header(l)| > |NoFilesText|;
  }

  /** A header in front of the joined parts shifts every part by the header's length. */
  lemma HeaderedLayout(h: string, parts: seq<string>, i: nat)
    requires i < |parts|
    ensures OccursAt(h + JoinBlocks(parts), parts[i], |h| + BlockOffset(parts, i))
  {
    JoinBlocksPart(parts, i);
    OccursAtShift(h, JoinBlocks(parts), parts[i], BlockOffset(parts, i));
  }

  /**
   After a header, the joined parts end with the last part, and a blank line
   follows every part but the last.
   */
  lemma HeaderedFrame(h: string, parts: seq<string>, i: nat)
    requires i < |parts|
    ensures |h + JoinBlocks(parts)| == |h| + BlockOffset(parts, |parts| - 1) + |parts[|parts| - 1]|
    ensures i + 1 < |parts| ==>
              OccursAt(h + JoinBlocks(parts), BlockSeparator, |h| + BlockOffset(parts, i) + |parts[i]|)
  {
    JoinBlocksLength(parts);
    if i + 1 < |parts| {
      JoinBlocksSeparator(parts, i);
      OccursAtShift(h, JoinBlocks(parts), BlockSeparator, BlockOffset(parts, i) + |parts[i]|);
    }
  }

  /** The `i`-th block sits after the header at its offset. */
  lemma RenderTextLayout(h: string, files: seq<CollectedFile>, i: nat)
    requires i < |files|
    ensures OccursAt(RenderText(h, files), Blocks(files)[i], |h| + BlockOffset(Blocks(files), i))
  {
    HeaderedLayout(h, Blocks(files), i);
  }

  /** A headered rendering ends with the last block. */
  lemma RenderTextEnd(h: string, files: seq<CollectedFile>)
    requires |files| > 0
    ensures |RenderText(h, files)| == |h| + BlockOffset(Blocks(files), |files| - 1) + |Blocks(files)[|files| - 1]|
  {
    HeaderedFrame(h, Blocks(files), |files| - 1);
  }

  /** In a headered rendering, a blank line follows every block but the last. */
  lemma RenderTextSeparator(h: string, files: seq<CollectedFile>, i: nat)
    requires i + 1 < |files|
    ensures OccursAt(RenderText(h, files), BlockSeparator, |h| + BlockOffset(Blocks(files), i) + |Blocks(files)[i]|)
  {
    HeaderedFrame(h, Blocks(files), i);
  }

  /**
   A successful rendering holds, after the header and in collection order,
   the block of every collected file at that file's offset.
   */
  lemma RenderFilesLayout(l: Language, files: seq<CollectedFile>, i: nat)
    requires i < |files|
    ensures OccursAt(RenderFiles(l, files).text, Block(files[i]), |Header(l)| + BlockOffset(Blocks(files), i))
  {
    RenderTextLayout(Header(l), files, i);
    BlocksAt(files, i);
    assert RenderFiles(l, files).text == RenderText(Header(l), files);
  }

  /**
   A successful rendering ends with the block of the last file: nothing
   follows it. (`BlocksAt` names that block `Block(files[|files| - 1])`.)
   */
  lemma RenderFilesEnd(l: Language, files: seq<CollectedFile>)
    requires |files| > 0
    ensures |RenderFiles(l, files).text|
            == |Header(l)| + BlockOffset(Blocks(files), |files| - 1) + |Blocks(files)[|files| - 1]|
  {
    assert RenderFiles(l, files).text == RenderText(Header(l), files);
    RenderTextEnd(Header(l), files);
  }

  /**
   In a successful rendering a blank line follows the block of every file
   but the last (`JoinBlocksSeparator` puts the next block right after it).
   */
  lemma RenderFilesSeparator(l: Language, files: seq<CollectedFile>, i: nat)
    requires i + 1 < |files|
    ensures OccursAt(RenderFiles(l, files).text, BlockSeparator,
                     |Header(l)| + BlockOffset(Blocks(files), i) + |Blocks(files)[i]|)
  {
    RenderedText(l, files);
    RenderTextSeparator(Header(l), files, i);
  }

  /** A successful rendering is the header followed by the joined blocks. */
  lemma RenderedText(l: Language, files: seq<CollectedFile>)
    requires files != []
    ensures RenderFiles(l, files).text == RenderText(Header(l), files)
  {
  }

}

=== FILE: handlers.dfy ===
/**
 The handlers of the tools that use a temporary workspace, as traces of the
 steps they take. Each outside effect (running a command, writing or reading
 files) is an event whose result is a parameter, and the workspace follows a
 three-state machine: `Absent` until the directory exists, `Live` while it
 does, `Removed` once the `finally` block has deleted it.
 */
module Handlers {
  import opened Text
  import opened Exec
  import opened Classifiers
  import opened FileTree
  import opened GenerateRender
  import opened LanguageTag

  /** The external commands the handlers run. */
  datatype Command =
    | StatelySchemaInit
    | StatelySchemaValidate
    | StatelySchemaPut(schemaId: string, dryRun: bool)
    | GoModInit
    | StatelySchemaGenerate(schemaId: string, language: Language)

  datatype Event =
    | Provision                 // the workspace directory now exists
    | WriteSchema(schema: string)
    | Invoke(command: Command)
    | CollectOutput             // `collectFiles` over the output directory
    | Dispose                   // `rmSync(dir, { recursive: true, force: true })`

  datatype WorkspaceState = Absent | Live | Removed

  function Next(s: WorkspaceState, ev: Event): WorkspaceState
  {
    match ev
    case Provision => Live
    case Dispose => if s == Live then Removed else s
    case _ => s
  }

  /** The workspace state once every event of the trace has happened. */
  function StateAfter(trace: seq<Event>): WorkspaceState
    decreases |trace|
  {
    if |trace| == 0 then Absent
    else Next(StateAfter(trace[..|trace| - 1]), trace[|trace| - 1])
  }

  /** Nothing provisioned, nothing to clean up. */
  lemma {:induction false} NoProvisionStaysAbsent(trace: seq<Event>)
    requires Provision !in trace
    ensures StateAfter(trace) == Absent
    decreases |trace|
  {
    if |trace| > 0 {
      var init := trace[..|trace| - 1];
      assert forall ev :: ev in init ==> ev in trace;
      NoProvisionStaysAbsent(init);
    }
  }

  /** Once provisioned, a workspace never goes back to `Absent`. */
  lemma {:induction false} ProvisionedNeverAbsent(trace: seq<Event>)
    requires Provision in trace
    ensures StateAfter(trace) != Absent
    decreases |trace|
  {
    var init := trace[..|trace| - 1];
    if trace[|trace| - 1] != Provision {
      assert trace == init + [trace[|trace| - 1]];
      assert Provision in init;
      ProvisionedNeverAbsent(init);
    }
  }

  /** A trace that provisions a workspace and ends by disposing of it leaves it removed. */
  lemma DisposeLastRemoves(trace: seq<Event>)
    requires Provision in trace
    requires trace[|trace| - 1] == Dispose
    ensures StateAfter(trace) == Removed
  {
    var init := trace[..|trace| - 1];
    assert trace == init + [Dispose];
    assert Provision in init;
    ProvisionedNeverAbsent(init);
  }

  /** No workspace is left behind. */
  ghost predicate Clean(trace: seq<Event>)
  {
    StateAfter(trace) != Live
  }

  /** Event `a` happens before event `b`. */
  ghost predicate Before(trace: seq<Event>, a: Event, b: Event)
  {
    exists i, j :: 0 <= i < j < |trace| && trace[i] == a && trace[j] == b
  }

  /** A handler either returns an envelope or lets an exception escape. */
  datatype Outcome = Returned(envelope: Envelope) | Threw(message: string)

  datatype Run = Run(outcome: Outcome, trace: seq<Event>)

  /** A synchronous filesystem call: it completes or throws. */
  datatype FsResult = Done | FsError(message: string)

  const InitFailurePrefix := "Failed to initialize stately schema"

  /**
   The shape shared by validate-schema, validate-migrations and schema-put
   (createTempDirectory at index.ts:20-32, then the handler body): the
   schema tool creates the workspace; a failure there escapes the handler
   before its `try`. Otherwise the schema is written and the command run
   inside `try`, whatever either throws goes to the handler's `catch` (a
   write error carries no standard output), and `finally` disposes of the
   workspace.
   */
  function SchemaWorkspaceRun(init: ExecResult, schema: string, write: FsResult, cmd: Command,
                              run: ExecResult, classify: ExecResult -> Envelope): (r: Run)
    requires cmd != StatelySchemaInit
    ensures Clean(r.trace)
    ensures Provision in r.trace <==> init.Ok?
    ensures Provision in r.trace ==> StateAfter(r.trace) == Removed
    ensures r.outcome.Threw? <==> init.Err?
    ensures init.Err? ==> r.outcome.message == ErrorHead(InitFailurePrefix, init.message)
    ensures Invoke(cmd) in r.trace <==> init.Ok? && write.Done?
    ensures Invoke(cmd) in r.trace ==> Before(r.trace, WriteSchema(schema), Invoke(cmd))
    ensures Invoke(cmd) in r.trace ==> r.outcome == Returned(classify(run))
    ensures init.Ok? && write.FsError? ==> r.outcome == Returned(classify(Err(write.message, "")))
  {
    if init.Err? then
      var trace := [Invoke(StatelySchemaInit)];
      NoProvisionStaysAbsent(trace);
      Run(Threw(ErrorHead(InitFailurePrefix, init.message)), trace)
    else if write.FsError? then
      var trace := [Invoke(StatelySchemaInit), Provision, WriteSchema(schema), Dispose];
      DisposeLastRemoves(trace);
      Run(Returned(classify(Err(write.message, ""))), trace)
    else
      var trace := [Invoke(StatelySchemaInit), Provision, WriteSchema(schema), Invoke(cmd), Dispose];
      DisposeLastRemoves(trace);
      assert trace[2] == WriteSchema(schema) && trace[3] == Invoke(cmd);
      Run(Returned(classify(run)), trace)
  }

  /** validate-schema (index.ts:40-102). */
  function ValidateSchemaRun(schema: string, init: ExecResult, write: FsResult, run: ExecResult): (r: Run)
    ensures Clean(r.trace)
    ensures r.outcome.Threw? <==> init.Err?
    ensures init.Ok? && write.Done? && run.Ok? ==>
              (r.outcome.envelope.isError <==> !Occurs(run.stdout, SchemaValidPhrase))
    ensures init.Ok? && !(write.Done? && run.Ok?) ==> r.outcome.envelope.isError
  {
    SchemaWorkspaceRun(init, schema, write, StatelySchemaValidate, run, ValidateSchema)
  }

  /** validate-migrations as index.ts:112-164 writes it, with the glyph literal of line 125. */
  function ValidateMigrationsRunAsWritten(schema: string, schemaId: string, init: ExecResult, write: FsResult,
                                          run: ExecResult): (r: Run)
    ensures Clean(r.trace)
    ensures r.outcome.Threw? <==> init.Err?
    ensures init.Ok? && write.Done? ==> Invoke(StatelySchemaPut(schemaId, true)) in r.trace
    ensures init.Ok? && write.Done? && run.Ok? ==>
              (r.outcome.envelope.isError <==>
                 !(Occurs(run.stdout, DryRunPhrase) && !Occurs(run.stdout, FailureGlyphAsWritten)))
    ensures init.Ok? && !(write.Done? && run.Ok?) ==> r.outcome.envelope.isError
  {
    SchemaWorkspaceRun(init, schema, write, StatelySchemaPut(schemaId, true), run, ValidateMigrationsAsWritten)
  }

  /** validate-migrations with the failure glyph the schema tool prints. */
  function ValidateMigrationsRun(schema: string, schemaId: string, init: ExecResult, write: FsResult,
                                 run: ExecResult): (r: Run)
    ensures Clean(r.trace)
    ensures r.outcome.Threw? <==> init.Err?
    ensures init.Ok? && write.Done? ==> Invoke(StatelySchemaPut(schemaId, true)) in r.trace
    ensures init.Ok? && write.Done? && run.Ok? ==>
              (r.outcome.envelope.isError <==>
                 !(Occurs(run.stdout, DryRunPhrase) && !Occurs(run.stdout, FailureGlyph)))
    ensures init.Ok? && !(write.Done? && run.Ok?) ==> r.outcome.envelope.isError
  {
    SchemaWorkspaceRun(init, schema, write, StatelySchemaPut(schemaId, true), run, ValidateMigrations)
  }

  /** The handler as written reports a dry run listing a failed item as valid; the corrected one does not. */
  lemma MigrationsRunGlyphMissed(schema: string, schemaId: string, initOut: string, initErr: string)
    ensures var run := Ok(DryRunPhrase + "\n" + FailureGlyph, "");
            var init := Ok(initOut, initErr);
            && !ValidateMigrationsRunAsWritten(schema, schemaId, init, Done, run).outcome.envelope.isError
            && ValidateMigrationsRun(schema, schemaId, init, Done, run).outcome.envelope.isError
  {
    MigrationsGlyphMissed();
  }

  /** schema-put (index.ts:265-309). */
  function SchemaPutRun(schema: string, schemaId: string, init: ExecResult, write: FsResult,
                        run: ExecResult): (r: Run)
    ensures Clean(r.trace)
    ensures r.outcome.Threw? <==> init.Err?
    ensures init.Ok? && write.Done? ==> Invoke(StatelySchemaPut(schemaId, false)) in r.trace
    ensures init.Ok? && write.Done? ==> (!r.outcome.envelope.isError <==> run.Ok? && run.stderr == "")
    ensures init.Ok? && write.FsError? ==> r.outcome.envelope.isError
  {
    SchemaWorkspaceRun(init, schema, write, StatelySchemaPut(schemaId, false), run, SchemaPut)
  }

  /**
   A schema accepted by the validator: whatever the schema text, a clean
   initialisation, a successful write and a validator that prints the
   phrase anywhere in its output give the confirmation text, and the
   workspace is gone.
   */
  lemma AcceptedSchemaScenario(schema: string, initOut: string, initErr: string, pre: string, rest: string,
                               err: string)
    ensures var r := ValidateSchemaRun(schema, Ok(initOut, initErr), Done, Ok(pre + SchemaValidPhrase + rest, err));
            r.outcome == Returned(Envelope(SchemaValidText, false)) && StateAfter(r.trace) == Removed
  {
    OccursSpliced(pre, SchemaValidPhrase, rest);
  }

  /** The result of walking the output directory: its listing, or the error a read threw. */
  datatype Listing = Listed(entries: seq<Entry>) | ListFailed(message: string)

  const GenerateFailurePrefix := "Failed to generate schema"
  const GoInitFailureText := "Failed to initialize Go module. Make sure Go is installed and available in your PATH."

  /** The events before the `try`: the output directory, then for Go the module. */
  function Setup(l: Language): seq<Event>
  {
    if l == Go then [Provision, Invoke(GoModInit)] else [Provision]
  }

  /** The events of the `try` block: the generator, then the walk when it succeeded. */
  function BodyTrace(schemaId: string, l: Language, gen: ExecResult): seq<Event>
  {
    [Invoke(StatelySchemaGenerate(schemaId, l))] + (if gen.Ok? then [CollectOutput] else [])
  }

  /**
   A run that gets past its setup provisions once, runs `go mod init`
   exactly for Go and before the generator, and ends with the removal.
   */
  lemma CompletedTrace(schemaId: string, l: Language, gen: ExecResult)
    ensures var trace := Setup(l) + BodyTrace(schemaId, l, gen) + [Dispose];
            && StateAfter(trace) == Removed
            && (Invoke(GoModInit) in trace <==> l == Go)
            && (l == Go ==> Before(trace, Invoke(GoModInit), Invoke(StatelySchemaGenerate(schemaId, l))))
  {
    var body := BodyTrace(schemaId, l, gen);
    var trace := Setup(l) + body + [Dispose];
    assert trace[0] == Provision;
    DisposeLastRemoves(trace);
    assert forall ev :: ev in body ==> ev != Invoke(GoModInit);
    if l == Go {
      assert trace[1] == Invoke(GoModInit) && trace[2] == body[0];
    }
  }

  /**
   The `try` block of schema-generate (index.ts:339-389): run the generator,
   collect the output directory, render it; any exception becomes the
   `catch` envelope (a filesystem error carries no standard output).
   */
  function GenerateBody(l: Language, gen: ExecResult, listing: Listing): (e: Envelope)
    ensures gen.Ok? && listing.Listed? ==> (e.isError <==> FileCount(listing.entries) == 0)
    ensures gen.Ok? && listing.Listed? ==> e == RenderFiles(l, CollectFiles(listing.entries, ""))
    ensures gen.Err? ==> e == ErrorEnvelope(GenerateFailurePrefix, gen)
    ensures !(gen.Ok? && listing.Listed?) ==> e.isError
    ensures gen.Ok? && listing.ListFailed? ==> e.isError && e.text == ErrorHead(GenerateFailurePrefix, listing.message)
  {
    if gen.Err? then ErrorEnvelope(GenerateFailurePrefix, gen)
    else
      match listing
      case ListFailed(m) => ErrorEnvelope(GenerateFailurePrefix, Err(m, ""))
      case Listed(entries) =>
        CollectCount(entries, "");
        RenderFiles(l, CollectFiles(entries, ""))
  }

  /**
   schema-generate as index.ts:319-398 writes it. The output directory is
   created by `mkdtempSync` before the `try`; for Go, `go mod init` also
   runs before the `try`, and its failure is rethrown from there, so the
   `finally` that removes the directory never runs on that path.
   */
  function GenerateRunAsWritten(schemaId: string, l: Language, mkdtemp: FsResult, goInit: ExecResult,
                                gen: ExecResult, listing: Listing): (r: Run)
    ensures !(l == Go && mkdtemp.Done? && goInit.Err?) ==> Clean(r.trace)
    ensures r.outcome.Threw? <==> mkdtemp.FsError? || (l == Go && goInit.Err?)
    ensures mkdtemp.FsError? ==> r.outcome == Threw(mkdtemp.message)
    ensures mkdtemp.Done? && l == Go && goInit.Err? ==> r.outcome == Threw(GoInitFailureText)
    ensures r.outcome.Returned? ==> r.outcome.envelope == GenerateBody(l, gen, listing)
  {
    if mkdtemp.FsError? then
      NoProvisionStaysAbsent([]);
      Run(Threw(mkdtemp.message), [])
    else if l == Go && goInit.Err? then Run(Threw(GoInitFailureText), Setup(l))
    else
      CompletedTrace(schemaId, l, gen);
      Run(Returned(GenerateBody(l, gen, listing)), Setup(l) + BodyTrace(schemaId, l, gen) + [Dispose])
  }

  /** On the Go path, a failing `go mod init` leaves the output directory behind. */
  lemma GoInitFailureLeaks(schemaId: string, goInit: ExecResult, gen: ExecResult, listing: Listing)
    requires goInit.Err?
    ensures var r := GenerateRunAsWritten(schemaId, Go, Done, goInit, gen, listing);
            r.outcome == Threw(GoInitFailureText) && StateAfter(r.trace) == Live
  {
  }

  /**
   schema-generate with the output directory removed on every path: the Go
   module failure is still rethrown, but only after the directory is gone.
   */
  function GenerateRun(schemaId: string, l: Language, mkdtemp: FsResult, goInit: ExecResult,
                       gen: ExecResult, listing: Listing): (r: Run)
    ensures Clean(r.trace)
    ensures Provision in r.trace <==> mkdtemp.Done?
    ensures Provision in r.trace ==> StateAfter(r.trace) == Removed
    ensures Invoke(GoModInit) in r.trace <==> l == Go && mkdtemp.Done?
    ensures l == Go && Invoke(StatelySchemaGenerate(schemaId, l)) in r.trace ==>
              Before(r.trace, Invoke(GoModInit), Invoke(StatelySchemaGenerate(schemaId, l)))
    ensures r.outcome.Threw? <==> mkdtemp.FsError? || (l == Go && goInit.Err?)
    ensures mkdtemp.Done? && l == Go && goInit.Err? ==> r.outcome == Threw(GoInitFailureText)
    ensures r.outcome.Returned? && gen.Ok? && listing.Listed? ==>
              (r.outcome.envelope.isError <==> FileCount(listing.entries) == 0)
    ensures r.outcome.Returned? && !(gen.Ok? && listing.Listed?) ==> r.outcome.envelope.isError
    ensures mkdtemp.FsError? ==> r.outcome == Threw(mkdtemp.message)
    ensures r.outcome.Returned? ==> r.outcome.envelope == GenerateBody(l, gen, listing)
  {
    if mkdtemp.FsError? then
      NoProvisionStaysAbsent([]);
      Run(Threw(mkdtemp.message), [])
    else if l == Go && goInit.Err? then
      var trace := Setup(l) + [Dispose];
      DisposeLastRemoves(trace);
      Run(Threw(GoInitFailureText), trace)
    else
      CompletedTrace(schemaId, l, gen);
      Run(Returned(GenerateBody(l, gen, listing)), Setup(l) + BodyTrace(schemaId, l, gen) + [Dispose])
  }

  /** The module file `go mod init` writes into the output directory. */
  const GoModFile := "go.mod"

  /** A listing that holds `go.mod` at its top level yields it among the collected files. */
  lemma GoModCollected(entries: seq<Entry>, i: nat, content: string)
    requires i < |entries| && entries[i] == File(GoModFile, content)
    ensures CollectedFile(GoModFile, content) in CollectFiles(entries, "")
  {
    assert JoinPath("", GoModFile) == GoModFile;
    assert HasFile(entries, "", GoModFile, content);
    CollectMembership(entries, "", GoModFile, content);
  }

  /**
   `go mod init` leaves `go.mod` in the output directory, and the walk
   collects it with the generated files. So once the module exists and the
   generator succeeds, Go never reports "No files were generated.": the
   result is a rendering under the Go header (with `go.mod` among its
   blocks, untagged by `LanguageTag.ModFileHasNoTag`). On this path the handler as written
   and the corrected one agree.
   */
  lemma GoModuleFileIsRendered(schemaId: string, goInit: ExecResult, gen: ExecResult,
                               entries: seq<Entry>, i: nat, content: string)
    requires goInit.Ok? && gen.Ok?
    requires i < |entries| && entries[i] == File(GoModFile, content)
    ensures CollectedFile(GoModFile, content) in CollectFiles(entries, "")
    ensures var r := GenerateRun(schemaId, Go, Done, goInit, gen, Listed(entries));
            && r.outcome.Returned? && !r.outcome.envelope.isError
            && r.outcome.envelope.text != NoFilesText
            && Header(Go) <= r.outcome.envelope.text
  {
    GoModCollected(entries, i, content);
    GoRunRendersListing(schemaId, goInit, gen, entries);
  }

  /** For Go, a clean module step and generation over a non-empty walk return the rendering. */
  lemma GoRunRendersListing(schemaId: string, goInit: ExecResult, gen: ExecResult, entries: seq<Entry>)
    requires goInit.Ok? && gen.Ok? && CollectFiles(entries, "") != []
    ensures var r := GenerateRun(schemaId, Go, Done, goInit, gen, Listed(entries));
            && r.outcome.Returned? && !r.outcome.envelope.isError
            && r.outcome.envelope.text != NoFilesText
            && Header(Go) <= r.outcome.envelope.text
  {
    RenderedIsNotNoFilesText(Go, CollectFiles(entries, ""));
    GoPathReturnsBody(schemaId, goInit, gen, Listed(entries));
  }

  /** Once the Go module is set up, both handlers return the rendered body. */
  lemma GoPathReturnsBody(schemaId: string, goInit: ExecResult, gen: ExecResult, listing: Listing)
    requires goInit.Ok?
    ensures var r := GenerateRun(schemaId, Go, Done, goInit, gen, listing);
            && r == GenerateRunAsWritten(schemaId, Go, Done, goInit, gen, listing)
            && r.outcome == Returned(GenerateBody(Go, gen, listing))
  {
  }

  /** Off the Go path the corrected handler changes nothing: both runs are the same. */
  lemma NonGoHandlersAgree(schemaId: string, l: Language, mkdtemp: FsResult, goInit: ExecResult,
                           gen: ExecResult, listing: Listing)
    requires l != Go
    ensures GenerateRun(schemaId, l, mkdtemp, goInit, gen, listing)
            == GenerateRunAsWritten(schemaId, l, mkdtemp, goInit, gen, listing)
  {
  }
}

=== FILE: language_tag.dfy ===
/**
 `getLanguageExtension` (index.ts:426-440): the fence tag for a generated
 file. The extension is computed the way Node's POSIX `path.extname` does:
 trailing slashes are ignored, only the last path segment is looked at, the
 extension runs from its last `.` to the end, and a segment whose only dot
 is its first character (a dotfile) or that is exactly `..` has none.
 */
module LanguageTag {
  import opened Wrappers

  /** Drops the trailing `/` characters. */
  function TrimTrailingSlashes(p: string): (t: string)
    ensures t <= p
    ensures t == [] || t[|t| - 1] != '/'
    ensures forall k :: |t| <= k < |p| ==> p[k] == '/'
    decreases |p|
  {
    if |p| > 0 && p[|p| - 1] == '/' then TrimTrailingSlashes(p[..|p| - 1]) else p
  }

  /** Index just past the last `/` of `p`, or 0 when there is none. */
  function SegmentStart(p: string): (k: nat)
    ensures k <= |p|
    ensures k == 0 || p[k - 1] == '/'
    ensures forall j :: k <= j < |p| ==> p[j] != '/'
    decreases |p|
  {
    if |p| == 0 then 0
    else if p[|p| - 1] == '/' then |p|
    else SegmentStart(p[..|p| - 1])
  }

  /** The last path segment, trailing slashes ignored. */
  function Basename(p: string): string
  {
    var t := TrimTrailingSlashes(p);
    t[SegmentStart(t)..]
  }

  /** Index of the last `.` of `b`. */
  function LastDot(b: string): (r: Option<nat>)
    ensures r.Some? ==> r.value < |b| && b[r.value] == '.'
    ensures r.Some? ==> forall j :: r.value < j < |b| ==> b[j] != '.'
    ensures r.None? ==> forall j :: 0 <= j < |b| ==> b[j] != '.'
    decreases |b|
  {
    if |b| == 0 then None
    else if b[|b| - 1] == '.' then Some(|b| - 1)
    else LastDot(b[..|b| - 1])
  }

  /** The extension of one path segment: from its last dot, unless that dot leads it or the segment is `..`. */
  function SegmentExtension(b: string): (ext: string)
    ensures ext == "" || (ext[0] == '.' && forall j :: 1 <= j < |ext| ==> ext[j] != '.')
    ensures ext != "" ==> |ext| < |b| && b[|b| - |ext|..] == ext
    ensures b != ".." && (exists d :: 0 < d < |b| && b[d] == '.') ==> ext != ""
    ensures b == ".." ==> ext == ""
  {
    match LastDot(b)
    case None => ""
    case Some(d) => if d == 0 || b == ".." then "" else b[d..]
  }

  /** `path.extname(p)`. */
  function Extname(p: string): string
  {
    SegmentExtension(Basename(p))
  }

  /**
   What `path.extname` can return: empty, or a dot-led piece of the last
   segment that ends the path once trailing slashes are dropped.
   */
  lemma ExtnameShape(p: string)
    ensures var ext := Extname(p);
            && (ext == "" || ext[0] == '.')
            && (forall j :: 0 <= j < |ext| ==> ext[j] != '/')
            && var t := TrimTrailingSlashes(p); |ext| <= |t| && t[|t| - |ext|..] == ext
  {
  }

  /** The seven extensions that get a fence tag. */
  const Tags: map<string, string> := map[
    ".ts" := "typescript",
    ".js" := "javascript",
    ".py" := "python",
    ".rb" := "ruby",
    ".go" := "go",
    ".json" := "json",
    ".md" := "markdown"
  ]

  /**
   `getLanguageExtension(name)`. Every key of the table begins with `.`, so no
   extension can reach a property inherited by the object literal; a miss is
   `undefined`, which `|| ''` turns into the empty tag.
   */
  function LanguageTagOf(name: string): (tag: string)
    ensures tag != "" <==> Extname(name) in Tags
    ensures Extname(name) in Tags ==> tag == Tags[Extname(name)]
  {
    var ext := Extname(name);
    if ext in Tags then Tags[ext] else ""
  }

  /** The tag depends on the extension and on nothing else in the name. */
  lemma TagDependsOnlyOnExtension(a: string, b: string)
    requires Extname(a) == Extname(b)
    ensures LanguageTagOf(a) == LanguageTagOf(b)
  {
  }

  /** For a path without a trailing slash, the segment start ignores everything before the last `/`. */
  lemma SegmentStartAppend(p: string, q: string)
    requires forall j :: 0 <= j < |q| ==> q[j] != '/'
    ensures SegmentStart(p + q) == SegmentStart(p)
    decreases |q|
  {
    if |q| > 0 {
      assert (p + q)[..|p + q| - 1] == p + q[..|q| - 1];
      SegmentStartAppend(p, q[..|q| - 1]);
    } else {
      assert p + q == p;
    }
  }

  /** Appending a dot-free text keeps the position of the last dot. */
  lemma LastDotAppend(b: string, q: string)
    requires forall j :: 0 <= j < |q| ==> q[j] != '.'
    ensures LastDot(b + q) == LastDot(b)
    decreases |q|
  {
    if |q| > 0 {
      assert (b + q)[..|b + q| - 1] == b + q[..|q| - 1];
      LastDotAppend(b, q[..|q| - 1]);
    } else {
      assert b + q == b;
    }
  }

  /** A directory part (empty or ending in `/`) followed by a slash-free segment has that segment as basename. */
  lemma BasenameAfterDir(dir: string, seg: string)
    requires dir == "" || dir[|dir| - 1] == '/'
    requires |seg| > 0 && forall j :: 0 <= j < |seg| ==> seg[j] != '/'
    ensures Basename(dir + seg) == seg
  {
    var p := dir + seg;
    assert p[|p| - 1] == seg[|seg| - 1];
    assert TrimTrailingSlashes(p) == p;
    SegmentStartAppend(dir, seg);
    assert SegmentStart(dir) == |dir| by {
      if |dir| > 0 {
        assert dir[|dir| - 1] == '/';
      }
    }
    assert p[|dir|..] == seg;
  }

  /** A non-empty segment followed by `.ext`, with `ext` dot-free and non-empty, has extension `.ext`. */
  lemma SegmentExtensionOfStem(seg: string, ext: string)
    requires |seg| > 0
    requires |ext| > 0 && forall j :: 0 <= j < |ext| ==> ext[j] != '.'
    ensures SegmentExtension(seg + "." + ext) == "." + ext
  {
    var b := seg + "." + ext;
    assert LastDot(seg + ".") == Some(|seg|);
    LastDotAppend(seg + ".", ext);
    assert b[|seg|..] == "." + ext;
    assert b != ".." by {
      assert |b| >= 3;
    }
  }

  /** The last segment of a path that does not end in `/` is not empty. */
  lemma LastSegmentNonEmpty(stem: string)
    requires |stem| > 0 && stem[|stem| - 1] != '/'
    ensures SegmentStart(stem) < |stem|
  {
  }

  /**
   A name `stem.ext`, where `ext` is a non-empty run free of `.` and `/` and
   the stem's last segment is not empty, has extension `.ext`.
   */
  lemma ExtnameOfStem(stem: string, ext: string)
    requires |ext| > 0 && forall j :: 0 <= j < |ext| ==> ext[j] != '.' && ext[j] != '/'
    requires |stem| > 0 && stem[|stem| - 1] != '/'
    ensures Extname(stem + "." + ext) == "." + ext
  {
    LastSegmentNonEmpty(stem);
    var s := SegmentStart(stem);
    var dir, seg := stem[..s], stem[s..];
    var b := seg + "." + ext;
    assert stem + "." + ext == dir + b;
    forall j | 0 <= j < |b|
      ensures b[j] != '/'
    {
      if j < |seg| {
        assert b[j] == stem[s + j];
      } else if j > |seg| {
        assert b[j] == ext[j - |seg| - 1];
      }
    }
    BasenameAfterDir(dir, b);
    SegmentExtensionOfStem(seg, ext);
  }

  /** Each of the seven extensions yields its language, wherever the file sits. */
  lemma TagOfKnownExtension(stem: string, ext: string)
    requires "." + ext in Tags
    requires |stem| > 0 && stem[|stem| - 1] != '/'
    ensures LanguageTagOf(stem + "." + ext) == Tags["." + ext]
  {
    assert ext in {"ts", "js", "py", "rb", "go", "json", "md"} by {
      assert "." + ext in {".ts", ".js", ".py", ".rb", ".go", ".json", ".md"};
      var x := "." + ext;
      assert ext == x[1..];
    }
    ExtnameOfStem(stem, ext);
  }

  /** A module file such as `go.mod` gets no fence tag: `.mod` is not in the table. */
  lemma ModFileHasNoTag(stem: string)
    requires |stem| > 0 && stem[|stem| - 1] != '/'
    ensures LanguageTagOf(stem + ".mod") == ""
  {
    ExtnameOfStem(stem, "mod");
    assert stem + "." + "mod" == stem + ".mod";
    assert ".mod" !in Tags;
  }

  /** A last segment with no dot, or whose only dot leads it, gets no tag. */
  lemma NoExtensionNoTag(dir: string, seg: string)
    requires dir == "" || dir[|dir| - 1] == '/'
    requires |seg| > 0 && forall j :: 0 <= j < |seg| ==> seg[j] != '/'
    requires forall j :: 1 <= j < |seg| ==> seg[j] != '.'
    ensures Extname(dir + seg) == ""
    ensures LanguageTagOf(dir + seg) == ""
  {
    BasenameAfterDir(dir, seg);
    NoDotNoExtension(seg);
    EmptyExtensionUntagged();
  }

  /** A segment whose only dot, if any, leads it has no extension. */
  lemma NoDotNoExtension(seg: string)
    requires forall j :: 1 <= j < |seg| ==> seg[j] != '.'
    ensures SegmentExtension(seg) == ""
  {
    match LastDot(seg) {
      case None =>
      case Some(d) => assert d == 0;
    }
  }

  /** The empty extension is not a key of the table. */
  lemma EmptyExtensionUntagged()
    ensures "" !in Tags
  {
  }
}

=== FILE: login_url.dfy ===
/**
 attempt-login (index.ts:171-218): finds the device-activation URL in the
 output of `stately login`. The pattern at index.ts:177 is the fixed prefix
 below followed by `[\w-]+`, matched with the `i` flag. Without the `u` flag
 JavaScript folds case only between ASCII letters, and `\w` is exactly
 `[A-Za-z0-9_]`, so the scanner here folds ASCII letters and nothing else.
 */
module LoginUrl {
  import opened Text
  import opened Exec
  import opened Wrappers

  /** The literal part of the pattern. */
  const ActivationPrefix := "https://oauth.stately.cloud/activate?user_code="

  const LoginPrompt := "Please visit this URL to complete the authentication process: "

  /** ASCII lower-casing: the only case folding the pattern's `i` flag performs here. */
  function Lower(c: char): char
  {
    if 'A' <= c <= 'Z' then (c as int + 32) as char else c
  }

  /** `[\w-]`. */
  predicate IsTokenChar(c: char)
  {
    ('a' <= c <= 'z') || ('A' <= c <= 'Z') || ('0' <= c <= '9') || c == '_' || c == '-'
  }

  /** The prefix matches, ignoring ASCII case, at index `i` of `s`. */
  predicate PrefixAt(s: string, i: nat)
  {
    i + |ActivationPrefix| <= |s|
    && forall k :: 0 <= k < |ActivationPrefix| ==> Lower(s[i + k]) == Lower(ActivationPrefix[k])
  }

  /** The whole pattern matches at `i`: the prefix and at least one token character. */
  predicate MatchAt(s: string, i: nat)
  {
    PrefixAt(s, i) && i + |ActivationPrefix| < |s| && IsTokenChar(s[i + |ActivationPrefix|])
  }

  /** End of the longest run of token characters starting at `j` (greedy `+`). */
  function TokenEnd(s: string, j: nat): (k: nat)
    requires j <= |s|
    ensures j <= k <= |s|
    ensures forall t :: j <= t < k ==> IsTokenChar(s[t])
    ensures k == |s| || !IsTokenChar(s[k])
    decreases |s| - j
  {
    if j < |s| && IsTokenChar(s[j]) then TokenEnd(s, j + 1) else j
  }

  /** The leftmost start index at or after `from` where the pattern matches. */
  function FirstMatch(s: string, from: nat): (r: Option<nat>)
    requires from <= |s|
    ensures r.Some? ==> from <= r.value && MatchAt(s, r.value)
    ensures r.Some? ==> forall j :: from <= j < r.value ==> !MatchAt(s, j)
    ensures r.None? ==> forall j :: from <= j ==> !MatchAt(s, j)
    decreases |s| - from
  {
    if from == |s| then None
    else if MatchAt(s, from) then Some(from)
    else FirstMatch(s, from + 1)
  }

  /**
   `u` is what the regular expression returns when its leftmost match starts
   at `k`: the text of `s` from `k`, covering the prefix and the longest run
   of token characters after it.
   */
  ghost predicate FirstUrlAt(s: string, k: nat, u: string)
  {
    && MatchAt(s, k)
    && (forall j :: 0 <= j < k ==> !MatchAt(s, j))
    && k + |u| <= |s|
    && u == s[k..k + |u|]
    && |u| > |ActivationPrefix|
    && (forall t :: k + |ActivationPrefix| <= t < k + |u| ==> IsTokenChar(s[t]))
    && (k + |u| == |s| || !IsTokenChar(s[k + |u|]))
  }

  /** `stdout.match(pattern)[1]`, or `None` when nothing matches. */
  function ExtractUrl(s: string): (r: Option<string>)
    ensures r.None? <==> forall j: nat :: !MatchAt(s, j)
    ensures r.Some? ==> exists k: nat :: FirstUrlAt(s, k, r.value)
  {
    match FirstMatch(s, 0)
    case None => None
    case Some(k) =>
      var u := s[k..TokenEnd(s, k + |ActivationPrefix|)];
      assert FirstUrlAt(s, k, u);
      Some(u)
  }

  /** The attempt-login envelope. */
  function AttemptLogin(r: ExecResult): (e: Envelope)
    ensures !e.isError <==> r.Ok? && exists j: nat :: MatchAt(r.stdout, j)
    ensures !e.isError ==> LoginPrompt <= e.text
                           && exists k: nat :: FirstUrlAt(r.stdout, k, e.text[|LoginPrompt|..])
    ensures r.Ok? && e.isError ==> Occurs(e.text, r.stdout) && Occurs(e.text, r.stderr)
    ensures r.Err? ==> ErrorHead("Failed to initiate login", r.message) <= e.text
    ensures r.Err? ==> CommandOutputOf("Failed to initiate login", r.message, e.text) == r.stdout
    ensures r.Err? && r.stdout == "" ==> e.text == ErrorHead("Failed to initiate login", r.message)
  {
    match r
    case Ok(stdout, stderr) =>
      (match ExtractUrl(stdout)
       case Some(url) =>
         assert (LoginPrompt + url)[|LoginPrompt|..] == url;
         Envelope(LoginPrompt + url, false)
       case None =>
         var head := "Login URL not found in output. Full output: ";
         if stderr != "" then
           OccursInTemplate(head, stdout, "\nError: ", stderr);
           assert head + stdout + ("\nError: " + stderr) == head + stdout + "\nError: " + stderr;
           Envelope(head + stdout + ("\nError: " + stderr), true)
         else
           OccursSpliced(head, stdout, "");
           assert head + stdout + "" == head + stdout;
           assert OccursAt(head + stdout + "", stderr, 0);
           Envelope(head + stdout + "", true))
    case Err(_, _) => ErrorEnvelope("Failed to initiate login", r)
  }

  /** The leftmost match is the one no earlier index beats. */
  lemma FirstMatchIs(s: string, k: nat)
    requires MatchAt(s, k)
    requires forall j :: 0 <= j < k ==> !MatchAt(s, j)
    ensures FirstMatch(s, 0) == Some(k)
  {
  }

  /** An exact prefix followed by a token matches where the prefix starts. */
  lemma MatchAtJoin(pre: string, token: string, post: string)
    requires |token| > 0 && IsTokenChar(token[0])
    ensures MatchAt(pre + ActivationPrefix + token + post, |pre|)
  {
  }

  /** The greedy token run stops exactly where `token` does. */
  lemma TokenEndJoin(a: string, token: string, post: string, j: nat)
    requires j <= |token|
    requires forall t :: 0 <= t < |token| ==> IsTokenChar(token[t])
    requires post == "" || !IsTokenChar(post[0])
    ensures TokenEnd(a + token + post, |a| + j) == |a| + |token|
    decreases |token| - j
  {
    var s := a + token + post;
    if j < |token| {
      assert s[|a| + j] == token[j];
      TokenEndJoin(a, token, post, j + 1);
    } else if |a| + j < |s| {
      assert s[|a| + j] == post[0];
    }
  }

  /**
   Completeness: an exact activation URL whose token is not followed by
   another token character is found and returned whole, wherever it sits,
   as long as no earlier position already matches.
   */
  lemma FindsUrlAfterText(pre: string, token: string, post: string)
    requires |token| > 0 && forall t :: 0 <= t < |token| ==> IsTokenChar(token[t])
    requires post == "" || !IsTokenChar(post[0])
    requires forall j :: 0 <= j < |pre| ==> !MatchAt(pre + ActivationPrefix + token + post, j)
    ensures ExtractUrl(pre + ActivationPrefix + token + post) == Some(ActivationPrefix + token)
  {
    var a := pre + ActivationPrefix;
    var s := a + token + post;
    FirstMatchAtJoin(pre, token, post);
    TokenEndJoin(a, token, post, 0);
    ExtractUrlAt(s, |pre|);
    UrlSlice(pre, token, post);
  }

  /** The joined URL is the leftmost match when nothing before it matches. */
  lemma FirstMatchAtJoin(pre: string, token: string, post: string)
    requires |token| > 0 && IsTokenChar(token[0])
    requires forall j :: 0 <= j < |pre| ==> !MatchAt(pre + ActivationPrefix + token + post, j)
    ensures FirstMatch(pre + ActivationPrefix + token + post, 0) == Some(|pre|)
  {
    MatchAtJoin(pre, token, post);
    FirstMatchIs(pre + ActivationPrefix + token + post, |pre|);
  }

  /** The text from the prefix to the end of the token is the URL. */
  lemma UrlSlice(pre: string, token: string, post: string)
    ensures (pre + ActivationPrefix + token + post)[|pre|..|pre| + |ActivationPrefix| + |token|]
            == ActivationPrefix + token
  {
  }

  /** When the leftmost match starts at `k`, the URL runs from `k` to the end of the token. */
  lemma ExtractUrlAt(s: string, k: nat)
    requires k <= |s| && FirstMatch(s, 0) == Some(k)
    ensures k + |ActivationPrefix| <= |s|
    ensures ExtractUrl(s) == Some(s[k..TokenEnd(s, k + |ActivationPrefix|)])
  {
  }
}

=== FILE: text.dfy ===
/**
 String helpers shared by every classifier: the reference meaning of
 JavaScript's `String.prototype.includes` and an executable scanner for it.
 */
module Text {

  /** `sub` sits in `s` starting at index `i`. */
  ghost predicate OccursAt(s: string, sub: string, i: int)
  {
    0 <= i && i + |sub| <= |s| && s[i..i + |sub|] == sub
  }

  /** Reference definition: `sub` is a contiguous piece of `s`. */
  ghost predicate Occurs(s: string, sub: string)
  {
    exists i :: OccursAt(s, sub, i)
  }

  /** `s.includes(sub)`: scans the start positions of `s` left to right. */
  function Includes(s: string, sub: string): (b: bool)
    ensures b <==> Occurs(s, sub)
    decreases |s|
  {
    if sub <= s then
      assert OccursAt(s, sub, 0);
      true
    else if |s| == 0 then
      false
    else
      OccursShift(s, sub);
      Includes(s[1..], sub)
  }

  /** An occurrence in `s` is either at its start or inside its tail. */
  lemma OccursShift(s: string, sub: string)
    requires |s| > 0
    ensures Occurs(s, sub) <==> sub <= s || Occurs(s[1..], sub)
  {
    if Occurs(s, sub) {
      var i :| OccursAt(s, sub, i);
      if i > 0 {
        assert s[1..][i - 1..i - 1 + |sub|] == s[i..i + |sub|];
        assert OccursAt(s[1..], sub, i - 1);
      } else {
        assert s[..|sub|] == s[i..i + |sub|];
      }
    }
    if Occurs(s[1..], sub) {
      var i :| OccursAt(s[1..], sub, i);
      assert s[i + 1..i + 1 + |sub|] == s[1..][i..i + |sub|];
      assert OccursAt(s, sub, i + 1);
    }
    if sub <= s {
      assert OccursAt(s, sub, 0);
    }
  }

  /** Whatever is spliced between two strings occurs in the result. */
  lemma OccursSpliced(pre: string, sub: string, post: string)
    ensures Occurs(pre + sub + post, sub)
  {
    var s := pre + sub + post;
    assert s[|pre|..|pre| + |sub|] == sub;
    assert OccursAt(s, sub, |pre|);
  }

  /** Putting text in front of a string shifts its occurrences by that text's length. */
  lemma OccursAtShift(h: string, s: string, sub: string, i: int)
    requires OccursAt(s, sub, i)
    ensures OccursAt(h + s, sub, |h| + i)
  {
  }

  /** Both strings interpolated into a two-slot template occur in the result. */
  lemma OccursInTemplate(a: string, x: string, b: string, y: string)
    ensures Occurs(a + x + b + y, x) && Occurs(a + x + b + y, y)
  {
    OccursSpliced(a, x, b + y);
    assert a + x + (b + y) == a + x + b + y;
    OccursSpliced(a + x + b, y, "");
    assert a + x + b + y + "" == a + x + b + y;
  }

  /** A character absent from `s` rules out every piece of text holding it. */
  lemma AbsentCharRulesOut(s: string, sub: string, k: nat)
    requires k < |sub|
    requires forall j :: 0 <= j < |s| ==> s[j] != sub[k]
    ensures !Occurs(s, sub)
  {
    forall i
      ensures !OccursAt(s, sub, i)
    {
      if 0 <= i && i + |sub| <= |s| {
        assert s[i..i + |sub|][k] == s[i + k];
      }
    }
  }
}

=== FILE: wrappers.dfy ===
/** Results that may be missing. */
module Wrappers {

  /** A value that may be missing (a search that found nothing). */
  datatype Option<T> = None | Some(value: T)
}
